=== FILE: README.md ===
# Grid snapping, modelled in Dafny

A model of the grid-snapping core of `bevy-grid-snapping` (`src/lib.rs`). A `Grid` entity
defines a lattice: cell size, gap between cells, an offset for coordinate (0, 0), and an
optional bound on each axis. `GridCell` entities are attached to a grid through the
`AttachedToGrid` / `AttachedCells` relationship. Each cell stores an integer coordinate,
and its `Transform` is kept on the lattice point of that coordinate. The core has three parts:

- **Coordinate math** (`grid_math.dfy`, `geometry.dfy`). `get_cell_position` maps a
  coordinate to an offset from the grid. `get_cell_coordinate` maps a position back under
  two policies:
  - *clamp* (`round_to_nearest = true`) pulls each axis into `[0, dim]`. It always answers.
  - *reject* (`false`) answers only when the point is non-negative and strictly inside
    every bound, which is the `is_coordinate_valid` test.

  Clamp allows `dim` itself but the validity test refuses it. The model keeps this
  asymmetry (`GridMath.ClampReachesInvalidBound`).
- **Attachment relation** (`attachment.dfy`, `scene.dfy`). The two sides of the
  relationship are explicit maps. `Consistent` says the two sides agree. Attaching and
  detaching a cell keep them consistent. `Scene.Wf` adds the component requirements that
  the `#[require]` attributes imply.
- **Synchronisation protocol** (`sync.dfy`). The three observers and `Grid::on_changed`
  are functions from world to world. `UpdateCellPosition` and `on_changed` are total. The
  two snap observers ask one thing of the grid the cell resolves to and nothing of any other
  grid (`Sync.SnapReady`, see "Left out"). Any cell, attachment or grid that does not
  resolve turns a handler into a no-op. A trigger queued through `Commands` is applied as a
  direct call after the handler that queued it.

`scenarios.dfy` works the concrete examples through the general definitions.
`wrappers.dfy` holds `Option`.

Numbers: f32 becomes `real`. Rounding is half away from zero, the rule of `f32::round`,
and `Geometry.RoundUnique` characterises it independently of its definition.
Coordinates are unbounded naturals.

## Model

| member | source | states |
|---|---|---|
| Geometry.Round | src/lib.rs:61-63 | The rounded value is within half a unit of the quotient. It lies past the quotient, away from zero, only at an exact half. |
| Geometry.RoundUnique | src/lib.rs:62 | Any integer meeting those three conditions is the rounded value, so the rounding rule is fully determined. |
| Geometry.RoundOfInteger | src/lib.rs:62 | Rounding an integer gives the same integer. |
| Geometry.RoundNegate | src/lib.rs:62 | Rounding half away from zero is symmetric: rounding `-x` gives minus the rounding of `x`. |
| GridMath.CellPosition | src/lib.rs:49-51 | The offset lies in the plane z = 0. When both strides are non-zero, removing the grid's offset and dividing by the stride gives exactly the coordinate, which fixes the position as coordinate times stride plus offset. Rounding that quotient also gives the coordinate, so `get_cell_coordinate` inverts it (see `GridMath.RawCoordinateOfCellPosition` and `GridMath.GetCellCoordinateRoundTrip`). |
| GridMath.RawCoordinate | src/lib.rs:58-63 | Per axis, the cell-minus-grid translation less the offset, divided by the stride, is within half a unit of the raw coordinate. At an exact half the raw coordinate is the neighbour farther from zero, as `f32::round` does. |
| GridMath.ClampInt | src/lib.rs:69 | `i32::clamp` with `lo <= hi`: values inside `[lo, hi]` are kept, values below become `lo`, values above become `hi`. |
| GridMath.ClampAxis | src/lib.rs:68-77 | One clamp axis: bounded axes give at most `dim`, and `dim` itself is allowed. A raw value in `[0, dim]` (or `>= 0` when unbounded) is kept. A negative one becomes 0, and one above `dim` becomes `dim`. |
| GridMath.IsCoordinateValid | src/lib.rs:90-93 | A coordinate is valid exactly when it lies in the clamp policy's range `[0, dim]` on each axis and is not the bound itself (see `GridMath.RejectYieldsValid` and `GridMath.ClampReachesInvalidBound`). |
| GridMath.GetCellCoordinate | src/lib.rs:52-89 | Clamp always returns `Some`. Each axis lies in `[0, dim]`, kept when the raw value is in range and saturated otherwise. Reject returns `Some` exactly when both raw axes are non-negative and strictly below every bound, and then returns the raw value. |
| GridMath.RoundTripAxis | src/lib.rs:61-63 | A distance of `n` whole strides divides and rounds back to `n`, for any non-zero stride. |
| GridMath.RawCoordinateOfCellPosition | src/lib.rs:49-63 | A cell placed at the grid translation plus `get_cell_position(c)` rounds back to exactly `c`, whatever its z. |
| GridMath.GetCellCoordinateRoundTrip | src/lib.rs:49-88 | Round trip: the derived coordinate of a cell at `c`'s lattice point is `Some(c)`. Under clamp this needs `c <= dim`; under reject it needs `c` valid. |
| GridMath.RejectAcceptedMeansClampAgrees | src/lib.rs:65-88 | Where reject returns a coordinate, clamp returns the same one. |
| GridMath.RejectYieldsValid | src/lib.rs:81-93 | Every coordinate reject returns passes `is_coordinate_valid`. |
| GridMath.ClampReachesInvalidBound | src/lib.rs:65-93 | A raw x at or past a bound clamps onto the bound itself. That coordinate fails `is_coordinate_valid`, and reject returns `None` for the same position. |
| Attachment.CellsOfExactly | src/lib.rs:163-171 | In a consistent relation, a grid's `AttachedCells` names exactly the cells whose `AttachedToGrid` points at it. |
| Attachment.Detach | src/lib.rs:164-171 | Removing `AttachedToGrid` keeps the relation consistent. The cell loses its link and leaves every list. |
| Attachment.Attach | src/lib.rs:164-171 | Inserting `AttachedToGrid(g)` keeps the relation consistent. The cell points at `g`, is appended last to `g`'s list, and leaves every other list. |
| Scene.AttachCell | src/lib.rs:157-171 | Attaching keeps `Wf`. A missing `GridCell` (coordinate zero) and `Transform` are added, and existing components are kept. |
| Scene.DetachCell | src/lib.rs:164-171 | Detaching keeps `Wf`, the cell's components and every translation. The cell is on no grid's list. |
| Sync.AttachedGrid | src/lib.rs:186-191 | A grid it finds passes the grid query. When the component requirements hold, an attached cell whose grid resolves is always found, and a found grid lists the cell (see `Sync.OrphanIsNoop` for the missing case). |
| Sync.UpdateCellPosition | src/lib.rs:179-197 | For a resolving cell and grid, the new translation is `(grid.x + cx*(sx+gx) + ox, grid.y + cy*(sy+gy) + oy, cell.z)` and the cell is in sync. Nothing else changes. Otherwise the world is unchanged. |
| Sync.UpdateKeepsTargets | src/lib.rs:186-196 | A position update changes no entity's target translation, including its own. |
| Sync.UpdateCellPositionIdempotent | src/lib.rs:192-196 | Updating a cell's position twice gives the same world as updating it once. |
| Sync.StoreThenUpdate | src/lib.rs:223-227 | Storing a coordinate and then triggering the position update leaves the cell holding it and standing on its lattice point. Its z is kept and other entities are untouched. |
| Sync.Snap | src/lib.rs:211-227 | When the policy gives no coordinate, the world is unchanged. Otherwise the cell stores the derived coordinate and ends in sync with its z kept, and no other entity, grid or link changes. |
| Sync.SnapCellToGrid | src/lib.rs:203-228 | A resolving cell always ends in sync on a coordinate within `[0, dim]` per axis. An unresolved one changes nothing. |
| Sync.TrySnapCellToGrid | src/lib.rs:234-259 | A rejected position leaves the world unchanged. An accepted one leaves the cell in sync on a valid coordinate. |
| Sync.SyncAll | src/lib.rs:95-99 | Applying the queued updates in order moves each listed cell that resolves to its target. Every other translation and every component stay as they were. |
| Sync.Triggered | src/lib.rs:94-100 | The first changed entity's cells are queued first, in their list's order. A single changed entity with a `Transform` queues exactly its own list. Membership in general is `Sync.TriggeredMembers`; by `Sync.SyncAll` the queue's order does not affect the result. |
| Sync.TriggeredMembers | src/lib.rs:94-100 | A cell is queued exactly when it is attached to some changed entity that has a `Transform`. |
| Sync.OnChanged | src/lib.rs:94-100 | Each queued cell that resolves is re-synced. Every other translation, coordinate, grid and link is unchanged. |
| Sync.MoveGrid | src/lib.rs:94-100 | Moving a grid keeps every coordinate, grid and link. A grid that is not a cell keeps its new translation. |
| Sync.TriggeredByMovedGrid | src/lib.rs:94-100 | When one grid moved, the queued cells are exactly the cells attached to it. |
| Sync.MovedGridTarget | src/lib.rs:193-196 | After a move, an attached cell stands on its lattice point relative to the grid's new translation, with its z kept. |
| Sync.MoveGridShiftsAttachedCells | src/lib.rs:94-100 | Each attached cell that was in sync shifts in x and y by the grid's delta. Its z and coordinate are unchanged. |
| Sync.MoveGridResyncsAttachedCells | src/lib.rs:94-100 | After a move, every attached cell is in sync, whether or not it was before. |
| Sync.MoveGridLeavesOthers | src/lib.rs:94-100 | After a move, every entity other than the grid and its attached cells keeps its translation. This includes cells of other grids. |
| Sync.HandlersKeepWf | src/lib.rs:179-259 | `UpdateCellPosition`, `on_changed` and a grid move preserve the component requirements and the relation's consistency in every world that meets them. The two snap observers do too wherever they apply (`Sync.SnapReady`), and they leave every grid unchanged. |
| Sync.OrphanIsNoop | src/lib.rs:186-247 | A cell missing its `Transform`, `GridCell` or `AttachedToGrid`, or whose grid does not resolve, is left unchanged by all three observers. |
| Sync.SnapSyncedCellIsNoop | src/lib.rs:211-258 | Snapping a cell already on its coordinate's lattice point changes nothing, provided the policy keeps that coordinate. |
| Sync.SnapIdempotent | src/lib.rs:218-258 | Snapping twice under the same policy gives the same world as snapping once. |
| Scenarios.DroppedCellSnaps | src/lib.rs:58-78 | Cells 32 wide with a gap of 2, grid at the origin, unbounded. A cell dropped at `(70, 0, z)` snaps to coordinate `(2, 0)` and moves to `(68, 0, z)`. |
| Scenarios.ClampSaturatesAtBound | src/lib.rs:68-72 | With an x bound `d`, a position `n >= d` cells out clamps to x = `d`. For example, raw 10 with bound 3 gives 3. |
| Scenarios.ClampFloorsNegative | src/lib.rs:70-72 | On an unbounded axis a negative raw value clamps to 0. |
| Scenarios.RejectRefusesBound | src/lib.rs:81-92 | On a `d` by `d` grid, reject refuses raw `(d, 1)`. |
| Scenarios.RejectAcceptsLastCell | src/lib.rs:81-92 | On a `d` by `d` grid, reject accepts raw `(d - 1, 1)`. |
| Scenarios.PlatformCarriesCells | src/lib.rs:94-100 | Two cells at `(0, 0)` and `(1, 0)` follow their grid from `p` to `q` exactly. |

## Left out

- Plugin wiring (`GridPlugin::build`, src/lib.rs:26-36) and scheduling are not modelled. The model has no scheduler: `OnChanged` takes the list of entities whose `Transform` changed in place of Bevy's change detection.
- `Commands` are not modelled as a queue. A queued `UpdateCellPosition` runs as a direct call after the handler that queued it.
- The debug overlay (`debug_on_changed`, `DebugCellOutline`, src/lib.rs:102-155) only spawns and despawns sprites, so it is not modelled.
- Bevy's own relationship hooks are not modelled beyond `Attachment.Attach` / `Attachment.Detach`. Those do not cover self-relations, despawning, or removing an `AttachedCells` list once it is empty. A missing list is read as an empty one.
- Transform rotation and scale are not modelled, because the code reads and writes only `translation`.
- GridMath.GetCellCoordinate: requires a non-zero stride on both axes. In f32, dividing by zero gives an infinity or NaN, and `as_ivec2` saturates that. The model treats a zero stride as a configuration error instead.
- GridMath.GetCellCoordinate: the clamp policy requires every bound to be at most `i32::MAX`. Above that, `dim as i32` wraps negative and `i32::clamp` panics.
- GridMath.RawCoordinate: uses exact real division and rounding. f32 rounding error is not modelled, and neither is the saturating `as_ivec2` cast for values beyond the `i32` range.
- Coordinates (`GridMath.Coord`) are unbounded naturals, not `u32`; the cast `as u32` on a clamped value is therefore the identity.
- Sync.Snap: requires `Sync.SnapReady`. The grid the cell resolves to must have a non-zero stride, and under clamp bounds that fit `i32`, for the reasons given for `GridMath.GetCellCoordinate`. Other grids and unresolved cells carry no requirement.
- Sync.SnapCellToGrid: requires `Sync.SnapReady` with the clamp policy. Sync.TrySnapCellToGrid requires it with the reject policy.

=== FILE: attachment.dfy ===
/** The `AttachedToGrid` / `AttachedCells` relationship of `src/lib.rs`: each cell points at
    one grid, and each grid lists its attached cells in attachment order. The host engine keeps
    the two sides in step; here both sides are explicit maps, `Consistent` says they agree,
    and attaching or detaching a cell keeps them agreeing. */
module Attachment {

  /** An entity identity. */
  type Entity = nat

  predicate NoDuplicates(s: seq<Entity>)
  {
    forall i, j :: 0 <= i < j < |s| ==> s[i] != s[j]
  }

  /** `s` without `e`: the other entries stay, `e` leaves, a list without repeats keeps none,
      and a list that never held `e` comes back as it was. */
  function Remove(s: seq<Entity>, e: Entity): (r: seq<Entity>)
    ensures forall x :: x in r <==> x in s && x != e
    ensures NoDuplicates(s) ==> NoDuplicates(r)
    ensures |r| <= |s|
    ensures e !in s ==> r == s
  {
    if |s| == 0 then []
    else if s[0] == e then Remove(s[1..], e)
    else
      var rest := Remove(s[1..], e);
      assert NoDuplicates(s) ==> s[0] !in s[1..] && NoDuplicates(s[1..]) by {
        if NoDuplicates(s) {
          forall k | 0 <= k < |s[1..]| ensures s[1..][k] != s[0] {
            assert s[1..][k] == s[k + 1];
          }
        }
      }
      var r := [s[0]] + rest;
      assert NoDuplicates(s) ==> NoDuplicates(r) by {
        if NoDuplicates(s) {
          forall i, j | 0 <= i < j < |r| ensures r[i] != r[j] {
            if i == 0 {
              assert r[j] == rest[j - 1];
              assert rest[j - 1] in rest;
            } else {
              assert r[i] == rest[i - 1] && r[j] == rest[j - 1];
            }
          }
        }
      }
      r
  }

  /** `attachedTo` holds each cell's `AttachedToGrid`; `attachedCells` each grid's
      `AttachedCells` list. */
  datatype Relation = Relation(attachedTo: map<Entity, Entity>, attachedCells: map<Entity, seq<Entity>>)
  {
    /** The cells attached to `g`, in attachment order; none if `g` has no list. */
    function CellsOf(g: Entity): seq<Entity>
    {
      if g in attachedCells then attachedCells[g] else []
    }

    /** Both sides describe the same many-to-one relation, and no list repeats a cell. */
    ghost predicate Consistent()
    {
      && (forall c :: c in attachedTo ==> c in CellsOf(attachedTo[c]))
      && (forall g, c :: g in attachedCells && c in attachedCells[g] ==> c in attachedTo && attachedTo[c] == g)
      && (forall g :: g in attachedCells ==> NoDuplicates(attachedCells[g]))
    }
  }

  /** Under consistency, a grid's list names exactly the cells pointing at it. */
  lemma CellsOfExactly(r: Relation, g: Entity, c: Entity)
    requires r.Consistent()
    ensures c in r.CellsOf(g) <==> c in r.attachedTo && r.attachedTo[c] == g
  {
  }

  /** Removing `AttachedToGrid` from `c`: `c` leaves the list it was on. */
  function Detach(r: Relation, c: Entity): (r': Relation)
    requires r.Consistent()
    ensures r'.Consistent()
    ensures r'.attachedTo == r.attachedTo - {c}
    ensures forall g :: r'.CellsOf(g) == Remove(r.CellsOf(g), c)
  {
    RemoveKeepsConsistent(r, c);
    Relation(r.attachedTo - {c}, map g | g in r.attachedCells :: Remove(r.attachedCells[g], c))
  }

  /** Dropping `c` from both sides of a consistent relation keeps it consistent. */
  lemma RemoveKeepsConsistent(r: Relation, c: Entity)
    requires r.Consistent()
    ensures Relation(r.attachedTo - {c}, map g | g in r.attachedCells :: Remove(r.attachedCells[g], c)).Consistent()
  {
    var r' := Relation(r.attachedTo - {c}, map g | g in r.attachedCells :: Remove(r.attachedCells[g], c));
    forall x | x in r'.attachedTo ensures x in r'.CellsOf(r'.attachedTo[x]) {
      var g := r.attachedTo[x];
      assert x in r.CellsOf(g);
      assert r'.CellsOf(g) == Remove(r.attachedCells[g], c);
    }
    forall g, x | g in r'.attachedCells && x in r'.attachedCells[g]
      ensures x in r'.attachedTo && r'.attachedTo[x] == g
    {
      assert x in r.attachedCells[g];
    }
    forall g | g in r'.attachedCells ensures NoDuplicates(r'.attachedCells[g]) {
      assert NoDuplicates(r.attachedCells[g]);
    }
  }

  /** Inserting `AttachedToGrid(g)` on `c`: `c` leaves any list it was on and is appended to
      the list of `g`, which is created if `g` had none. */
  function Attach(r: Relation, c: Entity, g: Entity): (r': Relation)
    requires r.Consistent()
    ensures r'.Consistent()
    ensures r'.attachedTo == r.attachedTo[c := g]
    ensures r'.CellsOf(g) == Remove(r.CellsOf(g), c) + [c]
    ensures forall h :: h != g ==> r'.CellsOf(h) == Remove(r.CellsOf(h), c)
  {
    var d := Detach(r, c);
    var r' := Relation(d.attachedTo[c := g], d.attachedCells[g := d.CellsOf(g) + [c]]);
    AppendKeepsConsistent(d, c, g);
    OverwriteAfterRemove(r.attachedTo, c, g);
    r'
  }

  /** Removing a key and then setting it is the same as setting it. */
  lemma OverwriteAfterRemove(m: map<Entity, Entity>, k: Entity, v: Entity)
    ensures (m - {k})[k := v] == m[k := v]
  {
  }

  /** Appending a detached cell to a grid's list, and pointing the cell at that grid,
      keeps the relation consistent. */
  lemma AppendKeepsConsistent(d: Relation, c: Entity, g: Entity)
    requires d.Consistent()
    requires c !in d.attachedTo
    ensures Relation(d.attachedTo[c := g], d.attachedCells[g := d.CellsOf(g) + [c]]).Consistent()
  {
    var r' := Relation(d.attachedTo[c := g], d.attachedCells[g := d.CellsOf(g) + [c]]);
    assert c !in d.CellsOf(g);
    forall x | x in r'.attachedTo ensures x in r'.CellsOf(r'.attachedTo[x]) {
      if x != c {
        assert x in d.CellsOf(d.attachedTo[x]);
      }
    }
    forall h, x | h in r'.attachedCells && x in r'.attachedCells[h]
      ensures x in r'.attachedTo && r'.attachedTo[x] == h
    {
      if h == g && x != c {
        assert x in d.CellsOf(g);
      }
    }
    var s := d.CellsOf(g) + [c];
    forall i, j | 0 <= i < j < |s| ensures s[i] != s[j] {
      if j == |s| - 1 {
        assert s[i] in d.CellsOf(g);
      }
    }
  }
}

=== FILE: geometry.dfy ===
/** Plane and space vectors standing in for glam's `Vec2`, `Vec3` and `IVec2`, and the
    nearest-integer rounding that `Vec2::round` applies to each component.

    Floating point is replaced by exact reals: the model proves what the code computes
    in exact arithmetic, not what f32 rounding makes of it. */
module Geometry {

  datatype Vec2 = Vec2(x: real, y: real)

  datatype Vec3 = Vec3(x: real, y: real, z: real)

  /** A pair of signed integers, the result of `as_ivec2`. */
  datatype IVec2 = IVec2(x: int, y: int)

  /** Nearest integer, halfway cases rounded away from zero (the rule of `f32::round`).
      The result is within half a unit of `x`, and it lies on the far side of `x` from zero
      only when `x` sits exactly halfway between two integers. */
  function Round(x: real): (r: int)
    ensures x - 0.5 <= r as real <= x + 0.5
    ensures r as real - x == 0.5 ==> x > 0.0
    ensures x - r as real == 0.5 ==> x < 0.0
  {
    if x >= 0.0 then (x + 0.5).Floor else -((0.5 - x).Floor)
  }

  /** The three conditions in `Round`'s contract single out one integer: any integer that
      meets them is `Round(x)`. */
  lemma RoundUnique(x: real, n: int)
    requires x - 0.5 <= n as real <= x + 0.5
    requires n as real - x == 0.5 ==> x > 0.0
    requires x - n as real == 0.5 ==> x < 0.0
    ensures n == Round(x)
  {
    var r := Round(x);
    assert -1 <= n - r <= 1;
  }

  /** Rounding leaves integers alone. */
  lemma RoundOfInteger(n: int)
    ensures Round(n as real) == n
  {
    RoundUnique(n as real, n);
  }

  /** Rounding half away from zero is symmetric about zero. */
  lemma RoundNegate(x: real)
    ensures Round(-x) == -Round(x)
  {
    RoundUnique(-x, -Round(x));
  }

  /** Dividing a multiple of a non-zero step by that step gives the multiplier back. */
  lemma DivideMultiple(n: int, step: real)
    requires step != 0.0
    ensures (n as real * step) / step == n as real
  {
  }
}

=== FILE: grid_math.dfy ===
/** The coordinate arithmetic of `Grid` in `src/lib.rs`: where a lattice coordinate sits
    relative to its grid, and which coordinate a world position snaps to under the two
    policies (clamp to the grid, or reject what lies outside it). */
module GridMath {
  import opened Wrappers
  import opened Geometry

  /** Largest `i32`; a bound above it turns negative under the code's `dim as i32`. */
  const I32_MAX: int := 0x7FFF_FFFF

  /** A lattice coordinate (`UVec2`). The 32-bit width is not modelled. */
  datatype Coord = Coord(x: nat, y: nat)

  /** The `GridCell` component: the coordinate a cell occupies on its grid. */
  datatype GridCell = GridCell(coordinate: Coord)

  /** The `Grid` component. `dimensions` bounds each axis, `None` meaning unbounded. */
  datatype Grid = Grid(cellSize: Vec2, cellGap: Vec2, offset: Vec2, dimensions: (Option<nat>, Option<nat>))
  {
    /** Distance between the origins of neighbouring cells along x. */
    function StrideX(): real { cellSize.x + cellGap.x }

    /** Distance between the origins of neighbouring cells along y. */
    function StrideY(): real { cellSize.y + cellGap.y }

    /** Positions can be divided back into coordinates: no stride is zero. */
    predicate Divisible() { StrideX() != 0.0 && StrideY() != 0.0 }

    /** Every bound survives the `dim as i32` conversion of the clamp policy unchanged. */
    predicate DimsFitI32() {
      && (dimensions.0.Some? ==> dimensions.0.value <= I32_MAX)
      && (dimensions.1.Some? ==> dimensions.1.value <= I32_MAX)
    }
  }

  /** Offset of a cell's position from its grid's position (`get_cell_position`): the
      coordinate scaled by the stride, shifted by the grid's offset, in the plane z = 0.
      Removing the offset and dividing by a non-zero stride recovers the coordinate exactly,
      which pins the position down; rounding that quotient gives the coordinate too. */
  function CellPosition(g: Grid, cell: GridCell): (p: Vec3)
    ensures p.z == 0.0
    ensures g.Divisible() ==>
              && (p.x - g.offset.x) / g.StrideX() == cell.coordinate.x as real
              && (p.y - g.offset.y) / g.StrideY() == cell.coordinate.y as real
              && Round((p.x - g.offset.x) / g.StrideX()) == cell.coordinate.x
              && Round((p.y - g.offset.y) / g.StrideY()) == cell.coordinate.y
  {
    var p := Vec3(cell.coordinate.x as real * g.StrideX() + g.offset.x,
                  cell.coordinate.y as real * g.StrideY() + g.offset.y,
                  0.0);
    if g.Divisible() then
      DivideMultiple(cell.coordinate.x, g.StrideX());
      DivideMultiple(cell.coordinate.y, g.StrideY());
      RoundTripAxis(cell.coordinate.x, g.StrideX(), p.x - g.offset.x);
      RoundTripAxis(cell.coordinate.y, g.StrideY(), p.y - g.offset.y);
      p
    else
      p
  }

  /** The cell position relative to the grid's coordinate origin, dropping z. */
  function LocalTranslation(g: Grid, gridT: Vec3, cellT: Vec3): Vec2
  {
    Vec2(cellT.x - gridT.x - g.offset.x, cellT.y - gridT.y - g.offset.y)
  }

  /** The nearest lattice point to a cell position, before any bound is applied; a position
      exactly halfway between two lattice points goes to the one farther from zero. */
  function RawCoordinate(g: Grid, gridT: Vec3, cellT: Vec3): (raw: IVec2)
    requires g.Divisible()
    ensures var local := LocalTranslation(g, gridT, cellT);
            && raw.x as real - 0.5 <= local.x / g.StrideX() <= raw.x as real + 0.5
            && raw.y as real - 0.5 <= local.y / g.StrideY() <= raw.y as real + 0.5
            && (raw.x as real - local.x / g.StrideX() == 0.5 ==> local.x / g.StrideX() > 0.0)
            && (local.x / g.StrideX() - raw.x as real == 0.5 ==> local.x / g.StrideX() < 0.0)
            && (raw.y as real - local.y / g.StrideY() == 0.5 ==> local.y / g.StrideY() > 0.0)
            && (local.y / g.StrideY() - raw.y as real == 0.5 ==> local.y / g.StrideY() < 0.0)
  {
    var local := LocalTranslation(g, gridT, cellT);
    IVec2(Round(local.x / g.StrideX()), Round(local.y / g.StrideY()))
  }

  /** `i32::clamp`: panics unless `lo <= hi`, hence the precondition. */
  function ClampInt(v: int, lo: int, hi: int): (r: int)
    requires lo <= hi
    ensures lo <= r <= hi
    ensures lo <= v <= hi ==> r == v
    ensures v < lo ==> r == lo
    ensures v > hi ==> r == hi
  {
    if v < lo then lo else if v > hi then hi else v
  }

  /** The clamp policy on one axis: into `[0, dim]` when bounded (the bound itself
      included), otherwise only floored at zero. */
  function ClampAxis(raw: int, dim: Option<nat>): (r: nat)
    requires dim.Some? ==> dim.value <= I32_MAX
    ensures dim.Some? ==> r <= dim.value
    ensures 0 <= raw && (dim.None? || raw <= dim.value) ==> r == raw
    ensures raw < 0 ==> r == 0
    ensures dim.Some? && raw > dim.value ==> r == dim.value
  {
    match dim
    case Some(d) => ClampInt(raw, 0, d)
    case None => if raw < 0 then 0 else raw
  }

  /** One axis of `is_coordinate_valid`: strictly below the bound, if there is one. */
  predicate AxisValid(c: int, dim: Option<nat>)
  {
    dim.None? || c < dim.value
  }

  /** `is_coordinate_valid`: the coordinate lies strictly inside every bounded axis. Put in
      terms of the clamp policy's range: valid exactly when inside `[0, dim]` without being
      `dim` itself. */
  predicate IsCoordinateValid(g: Grid, c: Coord): (b: bool)
    ensures b <==> && AxisInClosedRange(c.x, g.dimensions.0) && AxisInClosedRange(c.y, g.dimensions.1)
                   && (g.dimensions.0.Some? ==> c.x != g.dimensions.0.value)
                   && (g.dimensions.1.Some? ==> c.y != g.dimensions.1.value)
  {
    AxisValid(c.x, g.dimensions.0) && AxisValid(c.y, g.dimensions.1)
  }

  /** One axis lies in the range the clamp policy can produce: `[0, dim]`, or `[0, ∞)`. */
  predicate AxisInClosedRange(c: int, dim: Option<nat>)
  {
    0 <= c && (dim.None? || c <= dim.value)
  }

  /** `get_cell_coordinate`: the coordinate a cell at `cellT` snaps to on a grid at `gridT`.
      With `roundToNearest` (clamp) it always succeeds: each axis of the raw lattice point is
      kept when inside `[0, dim]` and otherwise pulled to the nearer end. Without it (reject)
      it succeeds exactly when the raw point is non-negative and strictly inside every
      bound, and then returns the raw point unchanged. */
  function GetCellCoordinate(g: Grid, gridT: Vec3, cellT: Vec3, roundToNearest: bool): (r: Option<Coord>)
    requires g.Divisible()
    requires roundToNearest ==> g.DimsFitI32()
    ensures var raw := RawCoordinate(g, gridT, cellT);
            roundToNearest ==>
              && r.Some?
              && AxisInClosedRange(r.value.x, g.dimensions.0)
              && AxisInClosedRange(r.value.y, g.dimensions.1)
              && (AxisInClosedRange(raw.x, g.dimensions.0) ==> r.value.x == raw.x)
              && (AxisInClosedRange(raw.y, g.dimensions.1) ==> r.value.y == raw.y)
              && (raw.x < 0 ==> r.value.x == 0)
              && (raw.y < 0 ==> r.value.y == 0)
              && (g.dimensions.0.Some? && raw.x > g.dimensions.0.value ==> r.value.x == g.dimensions.0.value)
              && (g.dimensions.1.Some? && raw.y > g.dimensions.1.value ==> r.value.y == g.dimensions.1.value)
    ensures var raw := RawCoordinate(g, gridT, cellT);
            !roundToNearest ==>
              && (r.Some? <==>
                    && 0 <= raw.x && 0 <= raw.y
                    && (g.dimensions.0.None? || raw.x < g.dimensions.0.value)
                    && (g.dimensions.1.None? || raw.y < g.dimensions.1.value))
              && (r.Some? ==> r.value.x == raw.x && r.value.y == raw.y)
  {
    var raw := RawCoordinate(g, gridT, cellT);
    if roundToNearest then
      Some(Coord(ClampAxis(raw.x, g.dimensions.0), ClampAxis(raw.y, g.dimensions.1)))
    else if raw.x >= 0 && raw.y >= 0 && IsCoordinateValid(g, Coord(raw.x, raw.y)) then
      Some(Coord(raw.x, raw.y))
    else
      None
  }

  /** Along one axis: a distance of `n` whole strides rounds back to `n`. */
  lemma RoundTripAxis(n: int, step: real, distance: real)
    requires step != 0.0
    requires distance == n as real * step
    ensures Round(distance / step) == n
  {
    DivideMultiple(n, step);
    RoundOfInteger(n);
  }

  /** A cell placed exactly on the lattice point of `c` rounds back to `c`. */
  lemma RawCoordinateOfCellPosition(g: Grid, gridT: Vec3, c: Coord, z: real)
    requires g.Divisible()
    ensures var p := CellPosition(g, GridCell(c));
            RawCoordinate(g, gridT, Vec3(gridT.x + p.x, gridT.y + p.y, z)) == IVec2(c.x, c.y)
  {
    var p := CellPosition(g, GridCell(c));
    var local := LocalTranslation(g, gridT, Vec3(gridT.x + p.x, gridT.y + p.y, z));
    RoundTripAxis(c.x, g.StrideX(), local.x);
    RoundTripAxis(c.y, g.StrideY(), local.y);
  }

  /** Round trip: deriving the coordinate of a cell positioned at `c` gives `c` back, under
      the clamp policy whenever `c` lies within `[0, dim]` on both axes, and under the reject
      policy whenever `c` is valid. */
  lemma GetCellCoordinateRoundTrip(g: Grid, gridT: Vec3, c: Coord, z: real, roundToNearest: bool)
    requires g.Divisible()
    requires roundToNearest ==> g.DimsFitI32()
    requires roundToNearest ==> AxisInClosedRange(c.x, g.dimensions.0) && AxisInClosedRange(c.y, g.dimensions.1)
    requires !roundToNearest ==> IsCoordinateValid(g, c)
    ensures var p := CellPosition(g, GridCell(c));
            GetCellCoordinate(g, gridT, Vec3(gridT.x + p.x, gridT.y + p.y, z), roundToNearest) == Some(c)
  {
    RawCoordinateOfCellPosition(g, gridT, c, z);
  }

  /** The two policies agree wherever the reject policy accepts. */
  lemma RejectAcceptedMeansClampAgrees(g: Grid, gridT: Vec3, cellT: Vec3)
    requires g.Divisible() && g.DimsFitI32()
    requires GetCellCoordinate(g, gridT, cellT, false).Some?
    ensures GetCellCoordinate(g, gridT, cellT, true) == GetCellCoordinate(g, gridT, cellT, false)
  {
  }

  /** The reject policy only ever yields valid coordinates. */
  lemma RejectYieldsValid(g: Grid, gridT: Vec3, cellT: Vec3)
    requires g.Divisible()
    requires GetCellCoordinate(g, gridT, cellT, false).Some?
    ensures IsCoordinateValid(g, GetCellCoordinate(g, gridT, cellT, false).value)
  {
  }

  /** The asymmetry between the policies: a raw point at or past a bound clamps onto the
      bound itself, a coordinate that `is_coordinate_valid` refuses and that the reject
      policy does not return. */
  lemma ClampReachesInvalidBound(g: Grid, gridT: Vec3, cellT: Vec3)
    requires g.Divisible() && g.DimsFitI32()
    requires g.dimensions.0.Some?
    requires RawCoordinate(g, gridT, cellT).x >= g.dimensions.0.value
    ensures GetCellCoordinate(g, gridT, cellT, true).value.x == g.dimensions.0.value
    ensures !IsCoordinateValid(g, GetCellCoordinate(g, gridT, cellT, true).value)
    ensures GetCellCoordinate(g, gridT, cellT, false).None?
  {
  }
}

=== FILE: scenarios.dfy ===
/** Worked examples of the general properties on 32-unit cells with a 2-unit gap: a snap of
    a dropped cell, saturation of the clamp policy, the reject boundary, and two cells
    following their grid. */
module Scenarios {
  import opened Wrappers
  import opened Geometry
  import opened GridMath
  import opened Attachment
  import opened Scene
  import opened Sync

  /** 32-unit cells with a 2-unit gap, coordinate origin on the grid's own position. */
  function Tiles(dimensions: (Option<nat>, Option<nat>)): Grid
  {
    Grid(Vec2(32.0, 32.0), Vec2(2.0, 2.0), Vec2(0.0, 0.0), dimensions)
  }

  const Origin := Vec3(0.0, 0.0, 0.0)

  /** On these grids, placed at the origin, the stride is 34 on both axes and a position is
      its own local translation. */
  lemma TilesAtOrigin(dimensions: (Option<nat>, Option<nat>), p: Vec3)
    ensures Tiles(dimensions).StrideX() == 34.0 && Tiles(dimensions).StrideY() == 34.0
    ensures LocalTranslation(Tiles(dimensions), Origin, p) == Vec2(p.x, p.y)
  {
  }

  /** Grid entity 0 at the origin, unbounded; cell entity 1 attached to it at coordinate
      (0, 0) but dropped at (70, 0, z). */
  function DropWorld(z: real): World
  {
    World(map[0 := Origin, 1 := Vec3(70.0, 0.0, z)],
          map[1 := GridCell(Coord(0, 0))],
          map[0 := Tiles((None, None))],
          Relation(map[1 := 0], map[0 := [1]]))
  }

  /** 70 / 34 rounds to 2, so the cell takes coordinate (2, 0) and moves to (68, 0), keeping
      its z. */
  lemma DroppedCellSnaps(z: real)
    ensures Wf(DropWorld(z))
    ensures SnapReady(DropWorld(z), 1, true)
    ensures var r := SnapCellToGrid(DropWorld(z), 1);
            r.cells[1] == GridCell(Coord(2, 0)) && r.transforms[1] == Vec3(68.0, 0.0, z)
  {
    var w := DropWorld(z);
    TilesAtOrigin((None, None), Vec3(70.0, 0.0, z));
    RoundUnique(70.0 / 34.0, 2);
    RoundUnique(0.0 / 34.0, 0);
    assert AttachedGrid(w, 1) == Some(0);
    assert SnapTarget(w, 1, true) == Some(Coord(2, 0));
  }

  /** With a bound `d` on x, a position `n >= d` cells out clamps to x = d, the bound itself
      (with d = 3 and n = 10: coordinate 3, not 10). */
  lemma ClampSaturatesAtBound(d: nat, n: int)
    requires d <= I32_MAX && n >= d
    ensures GetCellCoordinate(Tiles((Some(d), None)), Origin, Vec3(n as real * 34.0, 0.0, 0.0), true)
            == Some(Coord(d, 0))
  {
    TilesAtOrigin((Some(d), None), Vec3(n as real * 34.0, 0.0, 0.0));
    RoundTripAxis(n, 34.0, n as real * 34.0);
    RoundUnique(0.0 / 34.0, 0);
  }

  /** Without bounds, a position `n < 0` cells out clamps to x = 0 (with n = -5: 0). */
  lemma ClampFloorsNegative(n: int)
    requires n < 0
    ensures GetCellCoordinate(Tiles((None, None)), Origin, Vec3(n as real * 34.0, 0.0, 0.0), true)
            == Some(Coord(0, 0))
  {
    TilesAtOrigin((None, None), Vec3(n as real * 34.0, 0.0, 0.0));
    RoundTripAxis(n, 34.0, n as real * 34.0);
    RoundUnique(0.0 / 34.0, 0);
  }

  /** On a `d` by `d` grid the reject policy refuses raw (d, 1): the bound itself is
      outside (with d = 3: (3, 1) is refused). */
  lemma RejectRefusesBound(d: nat)
    ensures GetCellCoordinate(Tiles((Some(d), Some(d))), Origin, Vec3(d as real * 34.0, 34.0, 0.0), false)
            == None
  {
    var g := Tiles((Some(d), Some(d)));
    var cellT := Vec3(d as real * 34.0, 34.0, 0.0);
    TilesAtOrigin((Some(d), Some(d)), cellT);
    RoundTripAxis(d, 34.0, d as real * 34.0);
    RoundTripAxis(1, 34.0, 34.0);
    assert RawCoordinate(g, Origin, cellT).x == d;
  }

  /** On a `d` by `d` grid the reject policy accepts raw (d - 1, 1), the last cell before
      the bound (with d = 3: (2, 1) is accepted). */
  lemma RejectAcceptsLastCell(d: nat)
    requires d >= 2
    ensures GetCellCoordinate(Tiles((Some(d), Some(d))), Origin, Vec3((d - 1) as real * 34.0, 34.0, 0.0), false)
            == Some(Coord(d - 1, 1))
  {
    var g := Tiles((Some(d), Some(d)));
    var c := Coord(d - 1, 1);
    var p := CellPosition(g, GridCell(c));
    TilesAtOrigin((Some(d), Some(d)), Origin);
    assert Vec3(Origin.x + p.x, Origin.y + p.y, 0.0) == Vec3((d - 1) as real * 34.0, 34.0, 0.0);
    GetCellCoordinateRoundTrip(g, Origin, c, 0.0, false);
  }

  /** Grid entity 0 at `p` with cells 1 and 2 standing at coordinates (0, 0) and (1, 0). */
  function PlatformWorld(p: Vec3, z1: real, z2: real): World
  {
    World(map[0 := p, 1 := Vec3(p.x, p.y, z1), 2 := Vec3(p.x + 34.0, p.y, z2)],
          map[1 := GridCell(Coord(0, 0)), 2 := GridCell(Coord(1, 0))],
          map[0 := Tiles((None, None))],
          Relation(map[1 := 0, 2 := 0], map[0 := [1, 2]]))
  }

  /** Moving the grid from `p` to `q` shifts both cells by exactly `q - p`. */
  lemma PlatformCarriesCells(p: Vec3, q: Vec3, z1: real, z2: real)
    ensures var r := MoveGrid(PlatformWorld(p, z1, z2), 0, q);
            && r.transforms[1] == Vec3(q.x, q.y, z1)
            && r.transforms[2] == Vec3(q.x + 34.0, q.y, z2)
  {
    var w := PlatformWorld(p, z1, z2);
    assert Wf(w);
    assert InSync(w, 1) by { assert AttachedGrid(w, 1) == Some(0); }
    assert InSync(w, 2) by { assert AttachedGrid(w, 2) == Some(0); }
    MoveGridShiftsAttachedCells(w, 0, q, 1);
    MoveGridShiftsAttachedCells(w, 0, q, 2);
  }
}

=== FILE: scene.dfy ===
/** The slice of the ECS world the grid code reads and writes: each entity's `Transform`
    translation, its `GridCell` and `Grid` components, and the attachment relation. */
module Scene {
  import opened Geometry
  import opened GridMath
  import opened Attachment

  datatype World = World(
    transforms: map<Entity, Vec3>,
    cells: map<Entity, GridCell>,
    grids: map<Entity, Grid>,
    links: Relation)

  /** What the component requirements of `src/lib.rs` guarantee: `AttachedToGrid` brings a
      `GridCell`, `GridCell` and `Grid` bring a `Transform`, and the relation is consistent. */
  ghost predicate Wf(w: World)
  {
    && w.links.Consistent()
    && w.links.attachedTo.Keys <= w.cells.Keys
    && w.cells.Keys <= w.transforms.Keys
    && w.grids.Keys <= w.transforms.Keys
  }

  /** A component the requirement inserts only when the entity lacks it. */
  function WithDefault<V>(m: map<Entity, V>, e: Entity, default: V): (r: map<Entity, V>)
    ensures e in r && r.Keys == m.Keys + {e}
    ensures forall x :: x in m ==> r[x] == m[x]
    ensures e !in m ==> r[e] == default
  {
    if e in m then m else m[e := default]
  }

  /** Inserting `AttachedToGrid(g)` on `c`. A default `GridCell` (coordinate zero) and a
      default `Transform` (the origin) are added when missing, and `c` moves onto the list of
      `g`. */
  function AttachCell(w: World, c: Entity, g: Entity): (r: World)
    requires Wf(w)
    ensures Wf(r)
    ensures r.links.attachedTo == w.links.attachedTo[c := g]
    ensures r.links.CellsOf(g) == Remove(w.links.CellsOf(g), c) + [c]
    ensures c in r.cells && (c !in w.cells ==> r.cells[c] == GridCell(Coord(0, 0)))
    ensures forall x :: x in w.cells ==> x in r.cells && r.cells[x] == w.cells[x]
    ensures forall x :: x in w.transforms ==> x in r.transforms && r.transforms[x] == w.transforms[x]
    ensures r.grids == w.grids
  {
    World(WithDefault(w.transforms, c, Vec3(0.0, 0.0, 0.0)),
          WithDefault(w.cells, c, GridCell(Coord(0, 0))),
          w.grids,
          Attach(w.links, c, g))
  }

  /** Removing `AttachedToGrid` from `c`: the cell keeps its `GridCell` and `Transform` but
      leaves its grid's list. */
  function DetachCell(w: World, c: Entity): (r: World)
    requires Wf(w)
    ensures Wf(r)
    ensures c !in r.links.attachedTo
    ensures forall g :: c !in r.links.CellsOf(g)
    ensures r.transforms == w.transforms && r.cells == w.cells && r.grids == w.grids
  {
    w.(links := Detach(w.links, c))
  }
}

=== FILE: sync.dfy ===
/** The synchronisation protocol of `src/lib.rs`: the `UpdateCellPosition`, `SnapCellToGrid`
    and `TrySnapCellToGrid` observers and the `Grid::on_changed` system, each a function from
    the world before to the world after; the two snap observers ask `SnapReady` of the grid
    the cell resolves to. A trigger the code queues through `Commands` is
    applied as a direct call once the issuing handler is done. */
module Sync {
  import opened Wrappers
  import opened Geometry
  import opened GridMath
  import opened Attachment
  import opened Scene

  /** The grid query of the observers finds `g`: it has a `Grid` and a `Transform` and is not
      itself a cell (`Without<GridCell>`). */
  predicate GridResolves(w: World, g: Entity)
  {
    g in w.grids && g in w.transforms && g !in w.cells
  }

  /** The grid a handler for `e` acts against: `e` matches the cell query (a `Transform`, a
      `GridCell` and an `AttachedToGrid`) and the grid it points at resolves. In a world
      meeting the component requirements only the grid query can miss, and a grid found is
      one whose list names `e`. */
  function AttachedGrid(w: World, e: Entity): (r: Option<Entity>)
    ensures r.Some? ==> GridResolves(w, r.value)
    ensures Wf(w) && e in w.links.attachedTo && GridResolves(w, w.links.attachedTo[e]) ==> r.Some?
    ensures Wf(w) && r.Some? ==> e in w.links.CellsOf(r.value)
  {
    if e in w.transforms && e in w.cells && e in w.links.attachedTo && GridResolves(w, w.links.attachedTo[e])
    then Some(w.links.attachedTo[e])
    else None
  }

  /** Where `UpdateCellPosition` puts `e`: its grid's translation with the cell's own z, plus
      the offset of its stored coordinate. */
  function SyncedTranslation(w: World, e: Entity): Option<Vec3>
  {
    match AttachedGrid(w, e)
    case None => None
    case Some(g) =>
      var gt := w.transforms[g];
      var p := CellPosition(w.grids[g], w.cells[e]);
      Some(Vec3(gt.x + p.x, gt.y + p.y, w.transforms[e].z + p.z))
  }

  /** Unfolds `SyncedTranslation` for a cell whose grid resolves. */
  lemma SyncedTranslationOf(w: World, e: Entity, g: Entity)
    requires AttachedGrid(w, e) == Some(g)
    ensures var p := CellPosition(w.grids[g], w.cells[e]);
            SyncedTranslation(w, e) == Some(Vec3(w.transforms[g].x + p.x, w.transforms[g].y + p.y, w.transforms[e].z + p.z))
  {
  }

  /** The cell stands on the lattice point of its stored coordinate. */
  predicate InSync(w: World, e: Entity)
  {
    e in w.transforms && SyncedTranslation(w, e) == Some(w.transforms[e])
  }

  /** `UpdateCellPosition::observer`. For an attached cell of a resolving grid, the cell's
      x and y become the grid's plus coordinate times stride plus offset, its z stays, and the
      cell is then in sync; nothing else in the world changes. Otherwise it does nothing. */
  function UpdateCellPosition(w: World, e: Entity): (r: World)
    ensures r.cells == w.cells && r.grids == w.grids && r.links == w.links
    ensures r.transforms.Keys == w.transforms.Keys
    ensures forall x :: x in w.transforms && x != e ==> r.transforms[x] == w.transforms[x]
    ensures AttachedGrid(w, e).None? ==> r == w
    ensures AttachedGrid(w, e).Some? ==>
              var g := AttachedGrid(w, e).value;
              var gt := w.transforms[g];
              var grid := w.grids[g];
              var c := w.cells[e].coordinate;
              && r.transforms[e] == Vec3(gt.x + c.x as real * grid.StrideX() + grid.offset.x,
                                         gt.y + c.y as real * grid.StrideY() + grid.offset.y,
                                         w.transforms[e].z)
              && InSync(r, e)
  {
    match SyncedTranslation(w, e)
    case None => w
    case Some(t) => w.(transforms := w.transforms[e := t])
  }

  /** A position update changes no cell's target: it writes one cell's translation, keeps
      its z, and reads no other cell's translation. */
  lemma UpdateKeepsTargets(w: World, e: Entity)
    ensures forall x :: SyncedTranslation(UpdateCellPosition(w, e), x) == SyncedTranslation(w, x)
  {
  }

  /** Updating a cell's position twice is the same as updating it once. */
  lemma UpdateCellPositionIdempotent(w: World, e: Entity)
    ensures UpdateCellPosition(UpdateCellPosition(w, e), e) == UpdateCellPosition(w, e)
  {
    UpdateKeepsTargets(w, e);
  }

  /** What the snap observers need of the grid `e` is attached to, if it resolves: it can
      divide positions back into coordinates, and under the clamp policy its bounds survive
      the conversion to `i32`. Other grids, and cells that do not resolve, demand nothing. */
  predicate SnapReady(w: World, e: Entity, roundToNearest: bool)
  {
    match AttachedGrid(w, e)
    case None => true
    case Some(g) => w.grids[g].Divisible() && (roundToNearest ==> w.grids[g].DimsFitI32())
  }

  /** The coordinate a snap of `e` would store, or `None` when the cell is not attached to a
      resolving grid or the policy rejects its position. */
  function SnapTarget(w: World, e: Entity, roundToNearest: bool): Option<Coord>
    requires SnapReady(w, e, roundToNearest)
  {
    match AttachedGrid(w, e)
    case None => None
    case Some(g) => GetCellCoordinate(w.grids[g], w.transforms[g], w.transforms[e], roundToNearest)
  }

  /** The body shared by the two snap observers: derive the coordinate of `e` under the
      policy; if there is one, store it and update the position. When there is none the world
      is unchanged. When there is, the cell holds it and stands on its lattice point with its
      z kept, and no other entity changes. */
  function Snap(w: World, e: Entity, roundToNearest: bool): (r: World)
    requires SnapReady(w, e, roundToNearest)
    ensures r.grids == w.grids && r.links == w.links
    ensures r.transforms.Keys == w.transforms.Keys && r.cells.Keys == w.cells.Keys
    ensures AttachedGrid(r, e) == AttachedGrid(w, e)
    ensures forall x :: x in w.transforms && x != e ==> r.transforms[x] == w.transforms[x]
    ensures forall x :: x in w.cells && x != e ==> r.cells[x] == w.cells[x]
    ensures SnapTarget(w, e, roundToNearest).None? ==> r == w
    ensures SnapTarget(w, e, roundToNearest).Some? ==>
              && r.cells[e] == GridCell(SnapTarget(w, e, roundToNearest).value)
              && InSync(r, e)
              && r.transforms[e].z == w.transforms[e].z
  {
    match SnapTarget(w, e, roundToNearest)
    case None => w
    case Some(c) =>
      StoreThenUpdate(w, e, c);
      UpdateCellPosition(w.(cells := w.cells[e := GridCell(c)]), e)
  }

  /** Storing a coordinate on an attached cell and then updating its position puts the cell
      on that coordinate's lattice point and touches no other entity. */
  lemma StoreThenUpdate(w: World, e: Entity, c: Coord)
    requires AttachedGrid(w, e).Some?
    ensures var r := UpdateCellPosition(w.(cells := w.cells[e := GridCell(c)]), e);
            && r.grids == w.grids && r.links == w.links
            && r.transforms.Keys == w.transforms.Keys
            && r.cells == w.cells[e := GridCell(c)]
            && (forall x :: x in w.transforms && x != e ==> r.transforms[x] == w.transforms[x])
            && InSync(r, e)
            && r.transforms[e].z == w.transforms[e].z
  {
    var stored := w.(cells := w.cells[e := GridCell(c)]);
    assert AttachedGrid(stored, e) == AttachedGrid(w, e);
  }

  /** `SnapCellToGrid::observer` (clamp policy). An attached cell always ends up in sync on
      a coordinate inside `[0, dim]` on each axis; any other entity is left alone. */
  function SnapCellToGrid(w: World, e: Entity): (r: World)
    requires SnapReady(w, e, true)
    ensures AttachedGrid(w, e).None? ==> r == w
    ensures AttachedGrid(w, e).Some? ==>
              var grid := w.grids[AttachedGrid(w, e).value];
              && InSync(r, e)
              && AxisInClosedRange(r.cells[e].coordinate.x, grid.dimensions.0)
              && AxisInClosedRange(r.cells[e].coordinate.y, grid.dimensions.1)
  {
    Snap(w, e, true)
  }

  /** `TrySnapCellToGrid::observer` (reject policy). Either the position is rejected and the
      world is unchanged, or the cell ends up in sync on a valid coordinate. */
  function TrySnapCellToGrid(w: World, e: Entity): (r: World)
    requires SnapReady(w, e, false)
    ensures SnapTarget(w, e, false).None? ==> r == w
    ensures SnapTarget(w, e, false).Some? ==>
              && InSync(r, e)
              && IsCoordinateValid(w.grids[AttachedGrid(w, e).value], r.cells[e].coordinate)
  {
    Snap(w, e, false)
  }

  /** Applies `UpdateCellPosition` to each entity of `es` in turn. Each entity on the list
      that can be placed ends at the place the world before prescribed; every other
      translation, and every component other than translations, is unchanged. */
  function SyncAll(w: World, es: seq<Entity>): (r: World)
    ensures r.cells == w.cells && r.grids == w.grids && r.links == w.links
    ensures r.transforms.Keys == w.transforms.Keys
    ensures forall x {:trigger r.transforms[x]} :: x in w.transforms ==>
              r.transforms[x] == (if x in es && SyncedTranslation(w, x).Some?
                                  then SyncedTranslation(w, x).value
                                  else w.transforms[x])
    decreases |es|
  {
    if |es| == 0 then w
    else
      UpdateKeepsTargets(w, es[0]);
      SyncAll(UpdateCellPosition(w, es[0]), es[1..])
  }

  /** The cells whose position updates `on_changed` queues: the attached cells of every
      entity on `changed` that has a `Transform`, list after list. Which cells are queued is
      `TriggeredMembers`. The engine visits changed grids in an order of its own, not the
      order of `changed`; by the closed form of `SyncAll` the result depends only on which
      cells are queued, so the order does not matter. */
  function Triggered(w: World, changed: seq<Entity>): (t: seq<Entity>)
    ensures |changed| > 0 && changed[0] in w.transforms ==> w.links.CellsOf(changed[0]) <= t
    ensures |changed| == 1 && changed[0] in w.transforms ==> t == w.links.CellsOf(changed[0])
  {
    if |changed| == 0 then []
    else
      (if changed[0] in w.transforms then w.links.CellsOf(changed[0]) else [])
      + Triggered(w, changed[1..])
  }

  /** A cell is queued exactly when it is on the list of some entity on `changed` that has
      a `Transform`. */
  lemma {:induction false} TriggeredMembers(w: World, changed: seq<Entity>, c: Entity)
    ensures c in Triggered(w, changed) <==>
              exists g :: g in changed && g in w.transforms && c in w.links.CellsOf(g)
    decreases |changed|
  {
    if |changed| > 0 {
      TriggeredMembers(w, changed[1..], c);
      if c in Triggered(w, changed[1..]) {
        var g :| g in changed[1..] && g in w.transforms && c in w.links.CellsOf(g);
        assert g in changed;
      }
      forall g | g in changed && g in w.transforms && c in w.links.CellsOf(g) && g != changed[0]
        ensures c in Triggered(w, changed[1..])
      {
        assert g in changed[1..];
      }
    }
  }

  /** `Grid::on_changed`, given the entities whose `Transform` changed since it last ran. */
  function OnChanged(w: World, changed: seq<Entity>): (r: World)
    ensures r.cells == w.cells && r.grids == w.grids && r.links == w.links
    ensures r.transforms.Keys == w.transforms.Keys
    ensures forall x {:trigger r.transforms[x]} :: x in w.transforms ==>
              r.transforms[x] == (if x in Triggered(w, changed) && SyncedTranslation(w, x).Some?
                                  then SyncedTranslation(w, x).value
                                  else w.transforms[x])
  {
    SyncAll(w, Triggered(w, changed))
  }

  /** A grid's translation is set to `t`, after which `on_changed` runs for it. */
  function MoveGrid(w: World, g: Entity, t: Vec3): (r: World)
    ensures r.cells == w.cells && r.grids == w.grids && r.links == w.links
    ensures r.transforms.Keys == w.transforms.Keys + {g}
    ensures g !in w.cells ==> r.transforms[g] == t
  {
    OnChanged(w.(transforms := w.transforms[g := t]), [g])
  }

  /** None of the handlers adds or removes a component or touches the relation, so the
      component requirements and the relation's consistency survive every one of them. */
  lemma HandlersKeepWf(w: World, e: Entity, changed: seq<Entity>, g: Entity, t: Vec3)
    requires Wf(w)
    ensures Wf(UpdateCellPosition(w, e))
    ensures SnapReady(w, e, true) ==> Wf(SnapCellToGrid(w, e)) && SnapCellToGrid(w, e).grids == w.grids
    ensures SnapReady(w, e, false) ==> Wf(TrySnapCellToGrid(w, e)) && TrySnapCellToGrid(w, e).grids == w.grids
    ensures Wf(OnChanged(w, changed))
    ensures Wf(MoveGrid(w, g, t))
  {
  }

  /** A cell with no `GridCell`, no `Transform` or no `AttachedToGrid`, or whose grid does not
      resolve, is left alone by all three observers: coordinate and translation stay. */
  lemma OrphanIsNoop(w: World, e: Entity)
    requires || e !in w.transforms || e !in w.cells || e !in w.links.attachedTo
             || !GridResolves(w, w.links.attachedTo[e])
    ensures UpdateCellPosition(w, e) == w
    ensures SnapCellToGrid(w, e) == w
    ensures TrySnapCellToGrid(w, e) == w
  {
  }

  /** The range of coordinates a policy accepts unchanged: `[0, dim]` per axis for clamp,
      strictly inside the bounds for reject. */
  predicate KeptByPolicy(grid: Grid, c: Coord, roundToNearest: bool)
  {
    if roundToNearest
    then AxisInClosedRange(c.x, grid.dimensions.0) && AxisInClosedRange(c.y, grid.dimensions.1)
    else IsCoordinateValid(grid, c)
  }

  /** Snapping a cell that already stands on the lattice point of its stored coordinate,
      with a coordinate the policy keeps, changes nothing. */
  lemma SnapSyncedCellIsNoop(w: World, e: Entity, roundToNearest: bool)
    requires SnapReady(w, e, roundToNearest)
    requires InSync(w, e)
    requires KeptByPolicy(w.grids[AttachedGrid(w, e).value], w.cells[e].coordinate, roundToNearest)
    ensures Snap(w, e, roundToNearest) == w
  {
    var g := AttachedGrid(w, e).value;
    var grid := w.grids[g];
    var c := w.cells[e].coordinate;
    var z := w.transforms[e].z;
    var p := CellPosition(grid, GridCell(c));
    assert w.transforms[e] == Vec3(w.transforms[g].x + p.x, w.transforms[g].y + p.y, z);
    GetCellCoordinateRoundTrip(grid, w.transforms[g], c, z, roundToNearest);
    assert SnapTarget(w, e, roundToNearest) == Some(c);
    assert w.cells[e := GridCell(c)] == w.cells;
    assert w.transforms[e := w.transforms[e]] == w.transforms;
  }

  /** Snapping twice under the same policy is the same as snapping once. */
  lemma SnapIdempotent(w: World, e: Entity, roundToNearest: bool)
    requires SnapReady(w, e, roundToNearest)
    ensures var r := Snap(w, e, roundToNearest);
            Snap(r, e, roundToNearest) == r
  {
    var r := Snap(w, e, roundToNearest);
    var t := SnapTarget(w, e, roundToNearest);
    if t.Some? {
      var g := AttachedGrid(w, e).value;
      assert AttachedGrid(r, e) == Some(g);
      assert KeptByPolicy(r.grids[g], r.cells[e].coordinate, roundToNearest);
      SnapSyncedCellIsNoop(r, e, roundToNearest);
    }
  }

  /** When one grid's transform changed, `on_changed` queues exactly the cells attached to it. */
  lemma TriggeredByMovedGrid(w: World, g: Entity, x: Entity)
    requires w.links.Consistent()
    requires g in w.transforms
    ensures x in Triggered(w, [g]) <==> x in w.links.attachedTo && w.links.attachedTo[x] == g
  {
    assert Triggered(w, [g]) == w.links.CellsOf(g) + Triggered(w, []);
    CellsOfExactly(w.links, g, x);
  }

  /** After a grid moves from `gt` to `t`, each attached cell that stood on its lattice point
      has moved by `t - gt` in x and y, kept its z, and kept its coordinate. */
  lemma MoveGridShiftsAttachedCells(w: World, g: Entity, t: Vec3, c: Entity)
    requires Wf(w)
    requires GridResolves(w, g)
    requires c in w.links.attachedTo && w.links.attachedTo[c] == g
    requires InSync(w, c)
    ensures var r := MoveGrid(w, g, t);
            var gt := w.transforms[g];
            var old_t := w.transforms[c];
            && r.transforms[c] == Vec3(old_t.x + (t.x - gt.x), old_t.y + (t.y - gt.y), old_t.z)
            && r.cells[c] == w.cells[c]
  {
    CellsOfExactly(w.links, g, c);
    MovedGridTarget(w, g, t, c);
    SyncedTranslationOf(w, c, g);
  }

  /** After a grid moves, every cell attached to it stands on the lattice point of its
      coordinate, whether or not it did before. */
  lemma MoveGridResyncsAttachedCells(w: World, g: Entity, t: Vec3, c: Entity)
    requires Wf(w)
    requires GridResolves(w, g)
    requires c in w.links.attachedTo && w.links.attachedTo[c] == g
    ensures InSync(MoveGrid(w, g, t), c)
  {
    CellsOfExactly(w.links, g, c);
    MovedGridTarget(w, g, t, c);
  }

  /** Where `MoveGrid` puts a cell on the moved grid's list that points back at the grid:
      on its lattice point relative to the grid's new translation, with its z kept. */
  lemma MovedGridTarget(w: World, g: Entity, t: Vec3, c: Entity)
    requires GridResolves(w, g)
    requires c in w.transforms && c in w.cells
    requires c in w.links.attachedTo && w.links.attachedTo[c] == g
    requires c in w.links.CellsOf(g)
    ensures AttachedGrid(w, c) == Some(g)
    ensures var r := MoveGrid(w, g, t);
            && AttachedGrid(r, c) == Some(g)
            && r.transforms[g] == t
            && r.grids == w.grids && r.cells == w.cells
            && InSync(r, c)
            && var p := CellPosition(w.grids[g], w.cells[c]);
               r.transforms[c] == Vec3(t.x + p.x, t.y + p.y, w.transforms[c].z + p.z)
  {
    var moved := w.(transforms := w.transforms[g := t]);
    assert c in Triggered(moved, [g]) by {
      assert Triggered(moved, [g]) == moved.links.CellsOf(g) + Triggered(moved, []);
    }
    assert AttachedGrid(moved, c) == Some(g);
    SyncedTranslationOf(moved, c, g);
    var r := MoveGrid(w, g, t);
    assert AttachedGrid(r, c) == Some(g);
    SyncedTranslationOf(r, c, g);
  }

  /** Moving a grid leaves the translation of every entity other than the grid and its
      attached cells unchanged, cells of other grids included. */
  lemma MoveGridLeavesOthers(w: World, g: Entity, t: Vec3, x: Entity)
    requires Wf(w)
    requires x in w.transforms && x != g
    requires x !in w.links.attachedTo || w.links.attachedTo[x] != g
    ensures MoveGrid(w, g, t).transforms[x] == w.transforms[x]
  {
    var moved := w.(transforms := w.transforms[g := t]);
    TriggeredByMovedGrid(moved, g, x);
    assert moved.transforms[x] == w.transforms[x];
  }
}

=== FILE: wrappers.dfy ===
/** The optional value the Rust code expresses with `Option`: a grid axis without a bound,
    a coordinate derivation that rejects its input, or a lookup that finds nothing. */
module Wrappers {

  datatype Option<+T> = None | Some(value: T)
}
